=== FILE: README.md ===
# Business-travel emissions calculator, modelled in Dafny

This project models the calculation engine of a Streamlit app that estimates
the CO2e emissions of business flights. Its logic is in `calculator.py`:

- two exact-key lookups into reference tables: airport coordinates by `Lookup` code, and emission factors by travel `Class`;
- the haversine great-circle distance on a 6371 km sphere, doubled for return trips;
- the per-row loop that adds `Distance_km`, `Passenger_distance_pkm`, `Emission factor` and `Emissions` to the uploaded table;
- the ingestion of one or several uploaded CSV files, tagging merged rows with a `filename`;
- the dashboard sums: total emissions, emissions per class, and the top ten routes by emissions.

Modules, one per component:

| file | module | models |
|---|---|---|
| `wrappers.dfy` | `Wrappers` | `Option` and `Result` |
| `reference.dfy` | `Reference` | the airport and factor tables and their lookups |
| `haversine.dfy` | `Haversine` | `calculate_distance` |
| `rows.dfy` | `Rows` | uploaded rows and enriched rows |
| `enrich.dfy` | `Enrichment` | the per-row loop and column formulas |
| `ingest.dfy` | `Ingestion` | single- and multi-file ingestion |
| `calculator.dfy` | `Calculator` | one run of the calculator tab, upload to enriched table |
| `dashboard.dfy` | `Dashboard` | total, per-class sums, route labels and the top-10 ranking |

Modelling choices:

- Trigonometry is not computed. `pi`, `sin`, `cos`, `sqrt` and `atan2` arrive in a `Trig` value. Every statement about distances therefore holds for whatever functions the platform supplies. Arithmetic is over exact reals.
- A missing airport is an error outcome, not an absent distance. `get_coordinate` returns four `None`s, and `calculate_distance` then fails in `math.radians(None)`. That exception is not caught, so the run stops at the first such row and no column is added. `Enrichment.Enrich` returns `AirportNotFound` with that row's index and codes.
- A missing class yields absent emissions. The factor column is then `None`, and pandas turns the product into a missing value. The distance and passenger-kilometres are still computed. Absent emissions contribute nothing to the dashboard sums, as `groupby().sum()` skips missing values.
- Ingestion with no file does nothing. With exactly one file, its rows are used as read, with no `filename` column; if it does not parse, the run stops. With several files, the unreadable ones are skipped and the rest are tagged and concatenated in upload order; if none parses, the run stops.
- An empty `Num Passengers` cell is read as a missing value. No error is raised. The passenger-kilometres and emissions of that row are then absent, and the dashboard sums count the row as zero.

Further facts about the code that the model keeps:

- An unknown airport stops the whole run at that row; no row is kept with an absent distance.
- Besides the `filename` tag of a multi-file upload (`Ingestion.Tag`), the calculator tab adds only the four columns named above; resolved coordinates are not added to the table. The dashboard later adds a `Route` column (calculator.py:170), modelled as `Dashboard.RouteKey`.
- `Num Passengers` has no default. When no uploaded file has that column, line 138 raises a `KeyError`. An empty cell gives absent passenger-kilometres and emissions.
- A missing `Return?` column reads as one-way: `row.get` yields `None`, which is not "Return" (`Rows.IsReturn`).

## Model

| member | source | states |
|---|---|---|
| Reference.GetCoordinate | calculator.py:14-24 | a result exists exactly when both codes are airport keys, and it is their stored (Lat, Lon, Lat, Lon) in origin-then-destination order; otherwise all four are absent together |
| Reference.GetEmissionFactor | calculator.py:26-33 | a factor exists exactly when the class is a key, and it is the stored `Factor CO2e Value` |
| Reference.CoordinateDependsOnlyOnLeg | calculator.py:14-24 | the coordinate lookup depends only on the table entries for the two asked codes |
| Haversine.CalculateDistance | calculator.py:35-71 | the one-way result is 6371 times the central angle; the return result is exactly twice the one-way result for the same coordinates |
| Haversine.DistanceSymmetric | calculator.py:52-66 | flying the leg the other way gives the same distance, for any odd sine |
| Haversine.DistanceToSelfIsZero | calculator.py:52-71 | a leg from a point to itself has distance 0 when sin(0)=0, sqrt(0)=0, sqrt(1)=1 and atan2(0,1)=0 |
| Enrichment.EnrichRow | calculator.py:127-148 | one row resolves exactly when both airports are known; it then keeps the input row, takes the return flag from `Return?` = "Return", sets pkm = distance × passengers exactly when the passenger count is present, and has emissions = pkm × factor exactly when the count is present and the class is known |
| Enrichment.Enrich | calculator.py:123-148 | the loop completes exactly when every row resolves, giving one enriched row per input row in the same order; otherwise it reports the first unresolvable row with its codes |
| Enrichment.EnrichConcat | calculator.py:123-147 | rows are independent: a concatenation enriches exactly when both parts do, and its enrichment is the concatenation of theirs |
| Enrichment.EnrichConcatError | calculator.py:127-137 | a concatenation stops at the first part's error if it has one, and otherwise at the second part's, at its offset in the whole table |
| Enrichment.ReturnDoublesRow | calculator.py:135-148 | marking a row "Return" doubles its distance, and its passenger-kilometres and emissions when present, and keeps its factor |
| Enrichment.OnlyReturnTokenDoubles | calculator.py:135-137 | any `Return?` value other than exactly "Return" computes the same distance, pkm and emissions as a missing column |
| Enrichment.DistanceIgnoresFactors | calculator.py:132-148 | distance and passenger-kilometres do not depend on the factor table; an unknown class loses only the emissions |
| Ingestion.MergeUploads | calculator.py:92-109 | the merged row count is the sum of the parsed files' row counts, and every merged row carries the name of a file that parsed |
| Ingestion.MergeConcat | calculator.py:95-107 | merging keeps upload order: the rows of earlier files come first |
| Ingestion.MergeOne | calculator.py:95-100 | a parsed file contributes exactly its own rows, in order, each tagged with its name; an unreadable one contributes nothing |
| Ingestion.MergeSkipsUnreadable | calculator.py:96-104 | an unreadable file leaves the merged table as if it had not been uploaded |
| Ingestion.Ingest | calculator.py:92-120 | a table exists exactly when some uploaded file parsed; a lone file's rows are kept as read, with no `filename` tag; with several files the table is exactly the tagged, order-preserving merge of `Ingestion.MergeUploads` |
| Calculator.Calculate | calculator.py:92-148 | a run succeeds exactly when ingestion succeeds and every ingested row resolves; its rows are the ingested rows in order, each with the columns `Enrichment.EnrichRow` computes for it; an airport failure is `Enrichment.Enrich`'s error, naming the first unresolvable ingested row and its codes |
| Dashboard.GroupSum | calculator.py:167 | one total per distinct key, listed once each; each total is the emissions of exactly the rows with that key |
| Dashboard.GroupsAddUpToTotal | calculator.py:163-167 | over any list of distinct keys covering the table, the group totals add up to the total emissions metric |
| Dashboard.ClassTotals | calculator.py:163-167 | per-class totals cover exactly the classes present, each is its rows' emissions, and together they add up to the total emissions |
| Dashboard.RouteLabelInjective | calculator.py:170 | when no code contains the arrow, equal route labels mean equal origin and destination |
| Dashboard.SortDescending | calculator.py:171 | the result is a reordering of its input, ordered by non-increasing total |
| Dashboard.TopRoutes | calculator.py:170-171 | at most ten distinct routes, each with its summed emissions, in non-increasing order; a route left out means the list is full and every listed total is at least the left-out one's |

## Left out

- The Streamlit interface is not modelled: tabs, uploaders, the template download, expanders, metrics display and session state (calculator.py:76-91, 150-162). The run's result is returned instead of stored in the session.
- The `st.error` messages of the lookups and the file reads are not modelled. They are display-only side effects. A file skipped in a multi-file upload leaves no trace in the result beyond its `None` parse outcome.
- Charts are not modelled (calculator.py:166-211). The two bar charts and the pie chart show the class and route sums modelled in `Dashboard`. The custom-axis picker plots user-chosen columns of the enriched table and is presentation only.
- File I/O is not modelled: the template workbook (calculator.py:10-12), `pd.read_csv`, and loading the reference sheets in data.py. The tables are given maps and each upload arrives with its parse outcome.
- Column handling inside a parsed file is not modelled. Rows are typed records, and other columns travel along as opaque tags. An empty passenger cell is modelled as `None`, as described above. Three cases are outside the model:
  - A non-numeric passenger count.
  - `pd.concat` aligning columns by name.
  - A file that lacks a mandatory column. With one file, or when no file has the column, the loop raises a `KeyError`. In a multi-file upload, `pd.concat` fills that file's missing cells with NaN instead. A missing `Num Passengers` or `Class` then quietly gives absent passenger-kilometres or emissions. A missing `Origin` or `Destination` stops the run through the `TypeError` of the distance step.
- Haversine.CalculateDistance: trigonometry and IEEE rounding are not modelled, so no concrete distance (such as LHR to JFK) is stated. Doubling is exact in floating point too.
- Haversine.DistanceSymmetric: stated for any odd sine rather than for `math.sin` itself, which is not available to the model.
- Duplicate `Lookup` or `Class` keys are not modelled, because tables are maps. In pandas such keys make `.at` return several values.
- The order in which `groupby` lists its groups is not modelled. It sorts the keys. That order affects how the chart is drawn and, on ties, which route `.head(10)` keeps. `GroupSum` lists keys by first appearance.
- Dashboard.TopRoutes: when totals tie at the tenth place, which route is kept is not specified. `sort_values` does not promise a stable order, so the model proves only what holds for any choice.
- The total-distance metric (calculator.py:164) is not modelled separately. It is a plain sum over `Distance_km`, like the emissions total in `Dashboard.TotalEmissions`.
- The locals `pkm` and `emission` of the loop (calculator.py:138-139) are never used. The columns built at lines 146 and 148 hold the same values, and the model computes them once.

=== FILE: calculator.dfy ===
/**
 * One run of the calculator page: read the uploads into a table, then enrich
 * every row. The resulting table replaces the previous one as a whole.
 */
module Calculator {
  import opened Wrappers
  import opened Haversine
  import opened Rows
  import opened Ingestion
  import opened Enrichment

  /** Why a run produced no table. */
  datatype RunError = IngestFailed(ingestError: IngestError) | LookupFailed(lookupError: EnrichError)

  /**
   * The calculator tab from upload to enriched table. It succeeds exactly
   * when some file parsed and every row's airports are known; the output then
   * holds the ingested rows, in order, each with the columns `EnrichRow`
   * computes for it; otherwise the error names the first ingested row whose
   * airports are unknown, with its codes, as `Enrich` reports it.
   */
  function Calculate(t: Trig, tables: Tables, files: seq<Upload>): (r: Result<seq<Enriched>, RunError>)
    ensures r.Success? <==> Ingest(files).Success? && Enrich(t, tables, Ingest(files).value).Success?
    ensures r.Success? ==> |r.value| == ReadableRowCount(files)
    ensures r.Success? ==> forall i :: 0 <= i < |r.value| ==> r.value[i].row == Ingest(files).value[i]
    ensures r.Success? ==> forall i :: 0 <= i < |r.value| ==>
              EnrichRow(t, tables, Ingest(files).value[i]) == Some(r.value[i])
    ensures r.Failure? && r.error.IngestFailed? ==> !AnyReadable(files)
    ensures r.Failure? && r.error.LookupFailed? ==>
              var ingested := Ingest(files);
              var e := r.error.lookupError;
              && ingested.Success?
              && e == Enrich(t, tables, ingested.value).error
              && e.index < |ingested.value|
              && !Resolves(tables, ingested.value[e.index])
              && (forall j :: 0 <= j < e.index ==> Resolves(tables, ingested.value[j]))
              && e.origin == ingested.value[e.index].origin
              && e.destination == ingested.value[e.index].destination
  {
    match Ingest(files)
    case Failure(e) => Failure(IngestFailed(e))
    case Success(rows) =>
      match Enrich(t, tables, rows)
      case Failure(e) => Failure(LookupFailed(e))
      case Success(enriched) => Success(enriched)
  }
}

=== FILE: dashboard.dfy ===
/**
 * The dashboard's numbers (calculator.py, lines 163-171): total emissions,
 * emissions summed per travel class, and the ten routes with the largest
 * summed emissions.
 *
 * `groupby(...).sum()` skips missing values, so a row whose emissions are
 * absent (unknown class) adds nothing to its group; its group still exists.
 */
module Dashboard {
  import opened Wrappers
  import opened Rows

  /** What one row adds to a sum of `Emissions`. */
  function Contribution(e: Enriched): real {
    e.emissions.GetOr(0.0)
  }

  /** `df['Emissions'].sum()`. */
  function TotalEmissions(rows: seq<Enriched>): real {
    if |rows| == 0 then 0.0
    else TotalEmissions(rows[..|rows| - 1]) + Contribution(rows[|rows| - 1])
  }

  /** The emissions of the rows whose grouping key is `k`. */
  function KeySum(rows: seq<Enriched>, key: Enriched -> string, k: string): real {
    if |rows| == 0 then 0.0
    else
      var last := rows[|rows| - 1];
      KeySum(rows[..|rows| - 1], key, k) + (if key(last) == k then Contribution(last) else 0.0)
  }

  /** The groups `groupby` forms: every key some row carries. */
  function KeysOf(rows: seq<Enriched>, key: Enriched -> string): set<string> {
    set i | 0 <= i < |rows| :: key(rows[i])
  }

  predicate Distinct<T(==)>(s: seq<T>) {
    forall i, j :: 0 <= i < j < |s| ==> s[i] != s[j]
  }

  lemma {:induction false} KeySumOfAbsentKey(rows: seq<Enriched>, key: Enriched -> string, k: string)
    requires k !in KeysOf(rows, key)
    ensures KeySum(rows, key, k) == 0.0
  {
    if |rows| > 0 {
      var init := rows[..|rows| - 1];
      assert KeysOf(init, key) <= KeysOf(rows, key) by {
        forall x | x in KeysOf(init, key) ensures x in KeysOf(rows, key) {
          var i :| 0 <= i < |init| && key(init[i]) == x;
          assert rows[i] == init[i];
        }
      }
      assert key(rows[|rows| - 1]) in KeysOf(rows, key);
      KeySumOfAbsentKey(init, key, k);
    }
  }

  /**
   * `df.groupby(key)["Emissions"].sum()`: one total per distinct key, listed
   * once each in order of first appearance.
   */
  method GroupSum(rows: seq<Enriched>, key: Enriched -> string) returns (keys: seq<string>, totals: map<string, real>)
    ensures Distinct(keys)
    ensures totals.Keys == KeysOf(rows, key)
    ensures forall k :: k in totals <==> k in keys
    ensures forall k :: k in totals ==> totals[k] == KeySum(rows, key, k)
  {
    keys := [];
    totals := map[];
    for i := 0 to |rows|
      invariant Distinct(keys)
      invariant totals.Keys == KeysOf(rows[..i], key)
      invariant forall k :: k in totals <==> k in keys
      invariant forall k :: k in totals ==> totals[k] == KeySum(rows[..i], key, k)
    {
      var k := key(rows[i]);
      var c := Contribution(rows[i]);
      assert rows[..i + 1][..i] == rows[..i];
      assert rows[..i + 1][i] == rows[i];
      if k in totals {
        totals := totals[k := totals[k] + c];
      } else {
        KeySumOfAbsentKey(rows[..i], key, k);
        keys := keys + [k];
        totals := totals[k := c];
      }
      assert KeysOf(rows[..i + 1], key) == KeysOf(rows[..i], key) + {k} by {
        forall x | x in KeysOf(rows[..i + 1], key) ensures x in KeysOf(rows[..i], key) + {k} {
          var j :| 0 <= j < i + 1 && key(rows[..i + 1][j]) == x;
          if j < i {
            assert rows[..i + 1][j] == rows[..i][j];
          }
        }
        forall x | x in KeysOf(rows[..i], key) ensures x in KeysOf(rows[..i + 1], key) {
          var j :| 0 <= j < i && key(rows[..i][j]) == x;
          assert rows[..i + 1][j] == rows[..i][j];
        }
      }
    }
    assert rows[..|rows|] == rows;
  }

  /** The key `groupby("Class")` uses. */
  function ClassKey(e: Enriched): string {
    e.row.travelClass
  }

  /** Sum over a list of group keys of each group's emissions. */
  function SumOver(keys: seq<string>, rows: seq<Enriched>, key: Enriched -> string): real {
    if |keys| == 0 then 0.0
    else SumOver(keys[..|keys| - 1], rows, key) + KeySum(rows, key, keys[|keys| - 1])
  }

  /** `c` counted once for each occurrence of `x` in `keys`. */
  function Indicator(keys: seq<string>, x: string, c: real): real {
    if |keys| == 0 then 0.0
    else Indicator(keys[..|keys| - 1], x, c) + (if keys[|keys| - 1] == x then c else 0.0)
  }

  lemma {:induction false} IndicatorAbsent(keys: seq<string>, x: string, c: real)
    requires x !in keys
    ensures Indicator(keys, x, c) == 0.0
  {
    if |keys| > 0 {
      IndicatorAbsent(keys[..|keys| - 1], x, c);
    }
  }

  lemma {:induction false} IndicatorOnce(keys: seq<string>, x: string, c: real)
    requires Distinct(keys) && x in keys
    ensures Indicator(keys, x, c) == c
  {
    var init := keys[..|keys| - 1];
    assert forall i :: 0 <= i < |init| ==> init[i] == keys[i];
    if keys[|keys| - 1] == x {
      IndicatorAbsent(init, x, c);
    } else {
      IndicatorOnce(init, x, c);
    }
  }

  /** Adding one row to the table adds its contribution once per occurrence of its key. */
  lemma {:induction false} SumOverStep(keys: seq<string>, rows: seq<Enriched>, key: Enriched -> string)
    requires |rows| > 0
    ensures SumOver(keys, rows, key) ==
            SumOver(keys, rows[..|rows| - 1], key) + Indicator(keys, key(rows[|rows| - 1]), Contribution(rows[|rows| - 1]))
  {
    if |keys| > 0 {
      SumOverStep(keys[..|keys| - 1], rows, key);
    }
  }

  /**
   * The groups partition the table: summing the per-group totals over all
   * distinct keys gives the overall emissions metric.
   */
  lemma {:induction false} GroupsAddUpToTotal(keys: seq<string>, rows: seq<Enriched>, key: Enriched -> string)
    requires Distinct(keys)
    requires forall i :: 0 <= i < |rows| ==> key(rows[i]) in keys
    ensures SumOver(keys, rows, key) == TotalEmissions(rows)
  {
    if |rows| == 0 {
      SumOverEmpty(keys, key);
    } else {
      var init := rows[..|rows| - 1];
      var last := rows[|rows| - 1];
      SumOverStep(keys, rows, key);
      IndicatorOnce(keys, key(last), Contribution(last));
      assert forall i :: 0 <= i < |init| ==> init[i] == rows[i];
      GroupsAddUpToTotal(keys, init, key);
    }
  }

  lemma {:induction false} SumOverEmpty(keys: seq<string>, key: Enriched -> string)
    ensures SumOver(keys, [], key) == 0.0
  {
    if |keys| > 0 {
      SumOverEmpty(keys[..|keys| - 1], key);
    }
  }

  /**
   * Emissions by travel class: each class's total is the emissions of its
   * rows, and the class totals add up to the overall total.
   */
  method ClassTotals(rows: seq<Enriched>) returns (classes: seq<string>, totals: map<string, real>)
    ensures totals.Keys == KeysOf(rows, ClassKey)
    ensures forall k :: k in totals ==> totals[k] == KeySum(rows, ClassKey, k)
    ensures Distinct(classes) && forall k :: k in totals <==> k in classes
    ensures SumOver(classes, rows, ClassKey) == TotalEmissions(rows)
  {
    classes, totals := GroupSum(rows, ClassKey);
    assert forall i :: 0 <= i < |rows| ==> ClassKey(rows[i]) in KeysOf(rows, ClassKey);
    GroupsAddUpToTotal(classes, rows, ClassKey);
  }

  /** The separator placed between origin and destination in a route label. */
  const Arrow: char := '\U{279D}'

  /** `df["Origin"] + " ➝ " + df["Destination"]`. */
  function RouteLabel(origin: string, destination: string): string {
    origin + [' ', Arrow, ' '] + destination
  }

  /** The key `groupby("Route")` uses. */
  function RouteKey(e: Enriched): string {
    RouteLabel(e.row.origin, e.row.destination)
  }

  /**
   * As long as no airport code contains the arrow, a route label names one
   * (origin, destination) pair, so grouping by label is grouping by leg.
   */
  lemma RouteLabelInjective(o1: string, d1: string, o2: string, d2: string)
    requires Arrow !in o1 && Arrow !in o2
    requires RouteLabel(o1, d1) == RouteLabel(o2, d2)
    ensures o1 == o2 && d1 == d2
  {
    var l := RouteLabel(o1, d1);
    assert l == RouteLabel(o2, d2);
    // In either reading the first arrow of the label sits just after the origin.
    assert forall i :: 0 <= i < |o1| ==> l[i] == o1[i] && l[i] != Arrow;
    assert l[|o1|] == ' ' && l[|o1| + 1] == Arrow;
    assert forall i :: 0 <= i < |o2| ==> l[i] == o2[i] && l[i] != Arrow;
    assert l[|o2|] == ' ' && l[|o2| + 1] == Arrow;
    assert |o1| == |o2|;
    assert o1 == l[..|o1|] == o2;
    assert d1 == l[|o1| + 3..] == d2;
  }

  /** A route with its summed emissions. */
  type Ranked = (string, real)

  /** Ordered by total, largest first (`sort_values(ascending=False)`). */
  predicate NonIncreasing(s: seq<Ranked>) {
    forall i, j :: 0 <= i < j < |s| ==> s[i].1 >= s[j].1
  }

  /** Places `x` in a list already ordered by descending total. */
  function Insert(x: Ranked, s: seq<Ranked>): (r: seq<Ranked>)
    requires NonIncreasing(s)
    ensures NonIncreasing(r)
    ensures multiset(r) == multiset(s) + multiset{x}
    ensures |r| == |s| + 1
    ensures r[0] == x || (|s| > 0 && r[0] == s[0])
  {
    if |s| == 0 then [x]
    else if x.1 >= s[0].1 then [x] + s
    else
      var rest := Insert(x, s[1..]);
      assert s == [s[0]] + s[1..];
      assert s[0].1 >= rest[0].1;
      [s[0]] + rest
  }

  /** Insertion sort by descending total: a reordering of its input. */
  function SortDescending(s: seq<Ranked>): (r: seq<Ranked>)
    ensures NonIncreasing(r)
    ensures multiset(r) == multiset(s)
  {
    if |s| == 0 then []
    else
      assert s == [s[0]] + s[1..];
      Insert(s[0], SortDescending(s[1..]))
  }

  /** How many routes the dashboard shows (`.head(10)`). */
  const TopCount: nat := 10

  /** The routes appearing in a ranking. */
  function Names(s: seq<Ranked>): set<string> {
    set i | 0 <= i < |s| :: s[i].0
  }

  lemma {:induction false} DistinctCountsOnce(s: seq<Ranked>, x: Ranked)
    requires Distinct(s)
    ensures multiset(s)[x] <= 1
  {
    if |s| > 0 {
      var init := s[..|s| - 1];
      assert s == init + [s[|s| - 1]];
      assert Distinct(init) by {
        forall i, j | 0 <= i < j < |init| ensures init[i] != init[j] {
          assert init[i] == s[i] && init[j] == s[j];
        }
      }
      DistinctCountsOnce(init, x);
      assert forall i :: 0 <= i < |init| ==> init[i] == s[i];
    }
  }

  lemma RepeatCountsTwice(s: seq<Ranked>, i: nat, j: nat)
    requires i < j < |s| && s[i] == s[j]
    ensures multiset(s)[s[i]] >= 2
  {
    var x := s[i];
    assert s == s[..j] + [s[j]] + s[j + 1..];
    assert s[..j][i] == x;
    assert x in multiset(s[..j]);
  }

  /** Every entry of a ranking carries a key of `totals` with that key's total. */
  predicate Faithful(s: seq<Ranked>, totals: map<string, real>) {
    forall i :: 0 <= i < |s| ==> s[i].0 in totals && s[i].1 == totals[s[i].0]
  }

  lemma ReorderedStaysFaithful(a: seq<Ranked>, b: seq<Ranked>, totals: map<string, real>)
    requires multiset(a) == multiset(b) && Faithful(a, totals)
    ensures Faithful(b, totals)
  {
    forall m | 0 <= m < |b|
      ensures b[m].0 in totals && b[m].1 == totals[b[m].0]
    {
      assert b[m] in multiset(a);
    }
  }

  /** Reordering a list of distinct, faithful entries never lists a key twice. */
  lemma ReorderedNamesDistinct(a: seq<Ranked>, b: seq<Ranked>, totals: map<string, real>)
    requires multiset(a) == multiset(b) && Faithful(b, totals) && Distinct(a)
    ensures forall i, j :: 0 <= i < j < |b| ==> b[i].0 != b[j].0
  {
    forall i, j | 0 <= i < j < |b|
      ensures b[i].0 != b[j].0
    {
      if b[i].0 == b[j].0 {
        assert b[i] == b[j];
        RepeatCountsTwice(b, i, j);
        DistinctCountsOnce(a, b[i]);
      }
    }
  }

  /** In a descending list, whatever sits past position `n` is outranked by the first `n`. */
  lemma PastPrefixIsOutranked(sorted: seq<Ranked>, n: nat, p: Ranked)
    requires NonIncreasing(sorted) && n <= |sorted|
    requires p in multiset(sorted) && p !in sorted[..n]
    ensures n < |sorted|
    ensures forall i :: 0 <= i < n ==> sorted[i].1 >= p.1
  {
  }

  /** Each key paired with its total, in the order of `keys`. */
  function RankedOf(keys: seq<string>, totals: map<string, real>): (r: seq<Ranked>)
    requires forall i :: 0 <= i < |keys| ==> keys[i] in totals
    ensures |r| == |keys|
    ensures forall i :: 0 <= i < |r| ==> r[i] == (keys[i], totals[keys[i]])
  {
    seq(|keys|, i requires 0 <= i < |keys| => (keys[i], totals[keys[i]]))
  }

  /**
   * Cutting a descending reordering of all groups after `n` entries: a group
   * missing from the cut was cut off, and every kept group outranks it.
   */
  lemma LeftOutIsOutranked(keys: seq<string>, totals: map<string, real>, sorted: seq<Ranked>, n: nat, k: string)
    requires forall i :: 0 <= i < |keys| ==> keys[i] in totals
    requires multiset(RankedOf(keys, totals)) == multiset(sorted)
    requires NonIncreasing(sorted) && n <= |sorted|
    requires k in keys && k !in Names(sorted[..n])
    ensures n < |sorted|
    ensures forall i :: 0 <= i < n ==> sorted[i].1 >= totals[k]
  {
    var ranked := RankedOf(keys, totals);
    var r :| 0 <= r < |keys| && keys[r] == k;
    var p := ranked[r];
    assert p in multiset(sorted);
    assert p !in sorted[..n] by {
      forall i | 0 <= i < n ensures sorted[..n][i] != p {
        assert sorted[..n][i].0 in Names(sorted[..n]);
      }
    }
    PastPrefixIsOutranked(sorted, n, p);
  }

  /**
   * Emissions by route, top ten: at most ten distinct routes, each with its
   * summed emissions, largest first; when a route is left out the list is
   * full and every listed route's total is at least the left-out one's.
   */
  method TopRoutes(rows: seq<Enriched>) returns (top: seq<Ranked>)
    ensures |top| <= TopCount
    ensures NonIncreasing(top)
    ensures forall i :: 0 <= i < |top| ==> top[i].0 in KeysOf(rows, RouteKey)
    ensures forall i :: 0 <= i < |top| ==> top[i].1 == KeySum(rows, RouteKey, top[i].0)
    ensures forall i, j :: 0 <= i < j < |top| ==> top[i].0 != top[j].0
    ensures forall k :: k in KeysOf(rows, RouteKey) && k !in Names(top) ==>
              |top| == TopCount && forall i :: 0 <= i < |top| ==> top[i].1 >= KeySum(rows, RouteKey, k)
  {
    var routes, totals := GroupSum(rows, RouteKey);
    var ranked := RankedOf(routes, totals);
    assert Faithful(ranked, totals);
    assert Distinct(ranked);
    var sorted := SortDescending(ranked);
    ReorderedStaysFaithful(ranked, sorted, totals);
    ReorderedNamesDistinct(ranked, sorted, totals);
    var n := if |sorted| <= TopCount then |sorted| else TopCount;
    top := sorted[..n];
    assert forall i :: 0 <= i < |top| ==> top[i] == sorted[i];
    forall k | k in KeysOf(rows, RouteKey) && k !in Names(top)
      ensures |top| == TopCount && forall i :: 0 <= i < |top| ==> top[i].1 >= KeySum(rows, RouteKey, k)
    {
      LeftOutIsOutranked(routes, totals, sorted, n, k);
    }
  }
}

=== FILE: enrich.dfy ===
/**
 * The per-row loop of calculator.py (lines 123-148): resolve coordinates and
 * factor, compute the distance, then the passenger-kilometres and emissions
 * columns.
 *
 * The loop has no guard for an unknown airport: `get_coordinate` hands four
 * `None`s to `calculate_distance`, whose `math.radians(None)` raises, and the
 * whole run stops at that row with no column added. `Enrich` therefore
 * returns an error naming the first such row instead of a partial table.
 */
module Enrichment {
  import opened Wrappers
  import opened Reference
  import opened Haversine
  import opened Rows

  /** Both reference tables, loaded once and only read. */
  datatype Tables = Tables(airports: AirportTable, factors: FactorTable)

  /** Why a run stops: the row (0-based) whose origin or destination is not an airport `Lookup`. */
  datatype EnrichError = AirportNotFound(index: nat, origin: string, destination: string)

  /** Both ends of the row's leg are in the airport table, so its distance can be computed. */
  predicate Resolves(tables: Tables, row: Row) {
    row.origin in tables.airports && row.destination in tables.airports
  }

  /** The coordinates `get_coordinate` returns for a resolvable row. */
  function LegOf(tables: Tables, row: Row): Coords
    requires Resolves(tables, row)
  {
    var o := tables.airports[row.origin];
    var d := tables.airports[row.destination];
    Coords(o.lat, o.lon, d.lat, d.lon)
  }

  /**
   * One iteration of the loop; `None` is the iteration that raises.
   * The class lookup is independent of the airport lookups: an unknown class
   * still yields distance and passenger-kilometres, with absent emissions.
   * An empty `Num Passengers` cell (pandas reads it as NaN) leaves the
   * passenger-kilometres and the emissions absent, without any error.
   */
  function EnrichRow(t: Trig, tables: Tables, row: Row): (r: Option<Enriched>)
    ensures r.Some? <==> Resolves(tables, row)
    ensures r.Some? ==> r.value.row == row
    ensures r.Some? ==> r.value.distanceKm == CalculateDistance(t, LegOf(tables, row), IsReturn(row))
    ensures r.Some? ==> (r.value.passengerKm.Some? <==> row.passengers.Some?)
    ensures r.Some? && r.value.passengerKm.Some? ==>
              r.value.passengerKm.value == r.value.distanceKm * row.passengers.value
    ensures r.Some? ==> (r.value.factor.Some? <==> row.travelClass in tables.factors)
    ensures r.Some? && r.value.factor.Some? ==> r.value.factor.value == tables.factors[row.travelClass]
    ensures r.Some? ==> (r.value.emissions.Some? <==>
                           row.passengers.Some? && row.travelClass in tables.factors)
    ensures r.Some? && r.value.emissions.Some? ==>
              r.value.emissions.value == r.value.passengerKm.value * tables.factors[row.travelClass]
  {
    match GetCoordinate(tables.airports, row.origin, row.destination)
    case None => None
    case Some(leg) =>
      var factor := GetEmissionFactor(tables.factors, row.travelClass);
      var distance := CalculateDistance(t, leg, IsReturn(row));
      var pkm := if row.passengers.Some? then Some(distance * row.passengers.value) else None;
      var emissions := if pkm.Some? && factor.Some? then Some(pkm.value * factor.value) else None;
      Some(Enriched(row, distance, pkm, factor, emissions))
  }

  /**
   * The whole loop over the table in row order. It completes exactly when
   * every row resolves, producing one enriched row per input row, aligned
   * with it; otherwise it stops at the first row that does not resolve.
   */
  function Enrich(t: Trig, tables: Tables, rows: seq<Row>): (r: Result<seq<Enriched>, EnrichError>)
    ensures r.Success? <==> forall i :: 0 <= i < |rows| ==> Resolves(tables, rows[i])
    ensures r.Success? ==> |r.value| == |rows|
    ensures r.Success? ==> forall i :: 0 <= i < |rows| ==> EnrichRow(t, tables, rows[i]) == Some(r.value[i])
    ensures r.Failure? ==> r.error.index < |rows|
    ensures r.Failure? ==> !Resolves(tables, rows[r.error.index])
    ensures r.Failure? ==> forall j :: 0 <= j < r.error.index ==> Resolves(tables, rows[j])
    ensures r.Failure? ==> r.error.origin == rows[r.error.index].origin
                           && r.error.destination == rows[r.error.index].destination
  {
    if |rows| == 0 then Success([])
    else
      var last := rows[|rows| - 1];
      match Enrich(t, tables, rows[..|rows| - 1])
      case Failure(e) => Failure(e)
      case Success(done) =>
        match EnrichRow(t, tables, last)
        case None => Failure(AirportNotFound(|rows| - 1, last.origin, last.destination))
        case Some(e) => Success(done + [e])
  }

  /**
   * Rows are independent: enriching two tables one after the other is the
   * same as enriching their concatenation.
   */
  lemma EnrichConcat(t: Trig, tables: Tables, a: seq<Row>, b: seq<Row>)
    ensures Enrich(t, tables, a + b).Success? <==>
              Enrich(t, tables, a).Success? && Enrich(t, tables, b).Success?
    ensures Enrich(t, tables, a).Success? && Enrich(t, tables, b).Success? ==>
              Enrich(t, tables, a + b).value == Enrich(t, tables, a).value + Enrich(t, tables, b).value
  {
    var ab := a + b;
    assert forall i :: 0 <= i < |a| ==> ab[i] == a[i];
    assert forall i :: 0 <= i < |b| ==> ab[|a| + i] == b[i];
    var ra, rb, rab := Enrich(t, tables, a), Enrich(t, tables, b), Enrich(t, tables, ab);
    if ra.Success? && rb.Success? {
      var joined := ra.value + rb.value;
      forall i | 0 <= i < |joined|
        ensures rab.value[i] == joined[i]
      {
        assert EnrichRow(t, tables, ab[i]) == Some(rab.value[i]);
        if i >= |a| {
          assert EnrichRow(t, tables, b[i - |a|]) == Some(rb.value[i - |a|]);
        }
      }
    }
  }

  /**
   * The error of a concatenation is the first part's error if it has one,
   * and otherwise the second part's, shifted to its position in the whole.
   */
  lemma EnrichConcatError(t: Trig, tables: Tables, a: seq<Row>, b: seq<Row>)
    ensures Enrich(t, tables, a).Failure? ==> Enrich(t, tables, a + b) == Enrich(t, tables, a)
    ensures Enrich(t, tables, a).Success? && Enrich(t, tables, b).Failure? ==>
              && Enrich(t, tables, a + b).Failure?
              && Enrich(t, tables, a + b).error.index == |a| + Enrich(t, tables, b).error.index
  {
    var ab := a + b;
    assert forall i :: 0 <= i < |a| ==> ab[i] == a[i];
    assert forall i :: 0 <= i < |b| ==> ab[|a| + i] == b[i];
    var ra, rb, rab := Enrich(t, tables, a), Enrich(t, tables, b), Enrich(t, tables, ab);
    if ra.Failure? {
      FirstFailureIsUnique(tables, ab, ra.error.index, rab.error.index);
    }
    if ra.Success? && rb.Failure? {
      var k := |a| + rb.error.index;
      assert forall j :: |a| <= j < k ==> ab[j] == b[j - |a|];
      FirstFailureIsUnique(tables, ab, k, rab.error.index);
    }
  }

  /** The first unresolvable row of a table is a single, well-defined row. */
  lemma FirstFailureIsUnique(tables: Tables, rows: seq<Row>, i: nat, j: nat)
    requires i < |rows| && j < |rows|
    requires !Resolves(tables, rows[i]) && !Resolves(tables, rows[j])
    requires forall k :: 0 <= k < i ==> Resolves(tables, rows[k])
    requires forall k :: 0 <= k < j ==> Resolves(tables, rows[k])
    ensures i == j
  {
  }

  /**
   * A round trip doubles the distance, the passenger-kilometres and the
   * emissions of the otherwise identical one-way row.
   */
  lemma ReturnDoublesRow(t: Trig, tables: Tables, oneWay: Row)
    requires !IsReturn(oneWay)
    requires Resolves(tables, oneWay)
    ensures var single := EnrichRow(t, tables, oneWay).value;
            var round := EnrichRow(t, tables, oneWay.(returnMarker := Some(ReturnToken))).value;
            && round.distanceKm == 2.0 * single.distanceKm
            && (round.passengerKm.Some? <==> single.passengerKm.Some?)
            && (round.passengerKm.Some? ==> round.passengerKm.value == 2.0 * single.passengerKm.value)
            && round.factor == single.factor
            && (round.emissions.Some? <==> single.emissions.Some?)
            && (round.emissions.Some? ==> round.emissions.value == 2.0 * single.emissions.value)
  {
  }

  /**
   * Only the exact token "Return" marks a round trip: any other value of the
   * `Return?` column computes the same row as a missing column.
   */
  lemma OnlyReturnTokenDoubles(t: Trig, tables: Tables, row: Row, marker: Option<string>)
    requires Resolves(tables, row)
    requires marker != Some(ReturnToken)
    ensures var marked := EnrichRow(t, tables, row.(returnMarker := marker)).value;
            var absent := EnrichRow(t, tables, row.(returnMarker := None)).value;
            && marked.distanceKm == absent.distanceKm
            && marked.passengerKm == absent.passengerKm
            && marked.emissions == absent.emissions
  {
    var marked, absent := row.(returnMarker := marker), row.(returnMarker := None);
    assert !IsReturn(marked) && !IsReturn(absent);
    assert LegOf(tables, marked) == LegOf(tables, absent);
    var em, ea := EnrichRow(t, tables, marked).value, EnrichRow(t, tables, absent).value;
    if row.passengers.Some? {
      assert em.passengerKm.value == ea.passengerKm.value;
    }
    if row.passengers.Some? && row.travelClass in tables.factors {
      assert em.emissions.value == ea.emissions.value;
    }
  }

  /**
   * The distance columns do not depend on the emission-factor table: a class
   * missing from it costs the row its emissions, not its distance.
   */
  lemma DistanceIgnoresFactors(t: Trig, airports: AirportTable, f1: FactorTable, f2: FactorTable, row: Row)
    requires row.origin in airports && row.destination in airports
    requires row.travelClass !in f2
    ensures var r1 := EnrichRow(t, Tables(airports, f1), row).value;
            var r2 := EnrichRow(t, Tables(airports, f2), row).value;
            && r1.distanceKm == r2.distanceKm
            && r1.passengerKm == r2.passengerKm
            && r2.emissions == None
  {
    var r1 := EnrichRow(t, Tables(airports, f1), row).value;
    var r2 := EnrichRow(t, Tables(airports, f2), row).value;
    if row.passengers.Some? {
      assert r1.passengerKm.value == r2.passengerKm.value;
    }
  }
}

=== FILE: haversine.dfy ===
/**
 * `calculate_distance` in calculator.py: the haversine great-circle distance
 * on a sphere of radius 6371 km, doubled for a return trip.
 *
 * The trigonometric functions and pi are not computed here: they arrive as a
 * `Trig` value, so every statement below holds for whatever `sin`, `cos`,
 * `sqrt` and `atan2` the platform supplies. Arithmetic is over exact reals.
 */
module Haversine {
  import opened Reference

  /** The floating-point primitives the formula calls (`math.pi`, `math.sin`, ...). */
  datatype Trig = Trig(pi: real, sin: real -> real, cos: real -> real,
                       sqrt: real -> real, atan2: (real, real) -> real)

  /** Mean Earth radius used by the source, in kilometres. */
  const EarthRadiusKm: real := 6371.0

  /** `math.radians`: degrees times pi/180. */
  function Radians(t: Trig, degrees: real): real {
    degrees * (t.pi / 180.0)
  }

  function Square(x: real): real {
    x * x
  }

  /** The `a` term of the haversine formula for the two (already converted) points. */
  function HaversineTerm(t: Trig, lat1: real, lon1: real, lat2: real, lon2: real): real {
    var dLat := lat2 - lat1;
    var dLon := lon2 - lon1;
    Square(t.sin(dLat / 2.0)) + t.cos(lat1) * t.cos(lat2) * Square(t.sin(dLon / 2.0))
  }

  /** The central angle `c` between the two points, in radians. */
  function CentralAngle(t: Trig, c: Coords): real {
    var a := HaversineTerm(t, Radians(t, c.originLat), Radians(t, c.originLon),
                              Radians(t, c.destLat), Radians(t, c.destLon));
    2.0 * t.atan2(t.sqrt(a), t.sqrt(1.0 - a))
  }

  /**
   * `calculate_distance`: the arc length `R * c`, multiplied by two when
   * `isReturn` is set. The coordinates must be resolved: the source has no
   * branch for missing ones.
   */
  function CalculateDistance(t: Trig, c: Coords, isReturn: bool): (d: real)
    ensures !isReturn ==> d == EarthRadiusKm * CentralAngle(t, c)
    ensures isReturn ==> d == 2.0 * CalculateDistance(t, c, false)
  {
    var distance := EarthRadiusKm * CentralAngle(t, c);
    if isReturn then distance * 2.0 else distance
  }

  /** `sin` is odd, as the real sine and every correctly rounded sine are. */
  ghost predicate OddSine(t: Trig) {
    forall x :: t.sin(-x) == -t.sin(x)
  }

  /** The coordinates of the same leg flown the other way. */
  function Reversed(c: Coords): Coords {
    Coords(c.destLat, c.destLon, c.originLat, c.originLon)
  }

  /** Swapping the two points negates both differences and leaves `a` unchanged. */
  lemma HaversineTermSymmetric(t: Trig, lat1: real, lon1: real, lat2: real, lon2: real)
    requires OddSine(t)
    ensures HaversineTerm(t, lat1, lon1, lat2, lon2) == HaversineTerm(t, lat2, lon2, lat1, lon1)
  {
  }

  /** The distance of a leg does not depend on its direction, given an odd sine. */
  lemma DistanceSymmetric(t: Trig, c: Coords, isReturn: bool)
    requires OddSine(t)
    ensures CalculateDistance(t, Reversed(c), isReturn) == CalculateDistance(t, c, isReturn)
  {
    HaversineTermSymmetric(t, Radians(t, c.originLat), Radians(t, c.originLon),
                              Radians(t, c.destLat), Radians(t, c.destLon));
  }

  /**
   * A leg from a point to itself has length zero, whenever the primitives
   * agree with their real counterparts at the few exact points involved.
   */
  lemma DistanceToSelfIsZero(t: Trig, lat: real, lon: real, isReturn: bool)
    requires t.sin(0.0) == 0.0 && t.sqrt(0.0) == 0.0 && t.sqrt(1.0) == 1.0
    requires t.atan2(0.0, 1.0) == 0.0
    ensures CalculateDistance(t, Coords(lat, lon, lat, lon), isReturn) == 0.0
  {
  }
}

=== FILE: ingest.dfy ===
/**
 * Reading the uploaded CSV files into one itinerary table (calculator.py,
 * lines 92-120). Parsing itself is not modelled: each upload arrives with
 * its parse outcome, `None` standing for a file `pd.read_csv` rejects.
 */
module Ingestion {
  import opened Wrappers
  import opened Rows

  /** One uploaded file: its name and the rows parsed from it, if it parsed. */
  datatype Upload = Upload(name: string, parsed: Option<seq<Row>>)

  /**
   * Why no table reaches the calculation. With nothing uploaded the page does
   * nothing; in the two other cases the run stops (the single-file path
   * leaves `business_data` unbound, the multi-file path leaves it an empty
   * list with no rows to iterate).
   */
  datatype IngestError = NothingUploaded | UnreadableFile(name: string) | NoReadableFile

  /** `df['filename'] = file.name`: every row records the file it came from. */
  function Tag(name: string, rows: seq<Row>): (r: seq<Row>)
    ensures |r| == |rows|
    ensures forall i :: 0 <= i < |r| ==> r[i] == rows[i].(filename := Some(name))
  {
    seq(|rows|, i requires 0 <= i < |rows| => rows[i].(filename := Some(name)))
  }

  /** Total number of rows in the files that parsed. */
  function ReadableRowCount(files: seq<Upload>): nat {
    if |files| == 0 then 0
    else
      var last := files[|files| - 1];
      ReadableRowCount(files[..|files| - 1]) + (if last.parsed.Some? then |last.parsed.value| else 0)
  }

  /** Names of the files that parsed. */
  function ReadableNames(files: seq<Upload>): set<string> {
    set j | 0 <= j < |files| && files[j].parsed.Some? :: files[j].name
  }

  /** Some uploaded file parsed, so the list the loop builds is not empty. */
  predicate AnyReadable(files: seq<Upload>) {
    exists j :: 0 <= j < |files| && files[j].parsed.Some?
  }

  /**
   * The multi-file loop followed by `pd.concat`: unreadable files are
   * skipped, the others are tagged and concatenated in upload order.
   */
  function MergeUploads(files: seq<Upload>): (r: seq<Row>)
    ensures |r| == ReadableRowCount(files)
    ensures forall i :: 0 <= i < |r| ==> r[i].filename.Some? && r[i].filename.value in ReadableNames(files)
  {
    if |files| == 0 then []
    else
      var prefix := files[..|files| - 1];
      var last := files[|files| - 1];
      var merged := MergeUploads(prefix);
      assert ReadableNames(prefix) <= ReadableNames(files) by {
        forall n | n in ReadableNames(prefix) ensures n in ReadableNames(files) {
          var j :| 0 <= j < |prefix| && prefix[j].parsed.Some? && prefix[j].name == n;
          assert files[j] == prefix[j];
        }
      }
      match last.parsed
      case None => merged
      case Some(rows) =>
        assert last.name in ReadableNames(files) by {
          assert files[|files| - 1] == last;
        }
        merged + Tag(last.name, rows)
  }

  /** Merging respects upload order: the rows of earlier files come first. */
  lemma {:induction false} MergeConcat(a: seq<Upload>, b: seq<Upload>)
    ensures MergeUploads(a + b) == MergeUploads(a) + MergeUploads(b)
    decreases |b|
  {
    if |b| == 0 {
      assert a + b == a;
    } else {
      var b' := b[..|b| - 1];
      assert (a + b)[..|a + b| - 1] == a + b';
      assert (a + b)[|a + b| - 1] == b[|b| - 1];
      MergeConcat(a, b');
    }
  }

  /** A file alone contributes exactly its own rows, each tagged with its name. */
  lemma MergeOne(f: Upload)
    ensures f.parsed.None? ==> MergeUploads([f]) == []
    ensures f.parsed.Some? ==> |MergeUploads([f])| == |f.parsed.value|
    ensures f.parsed.Some? ==> forall i :: 0 <= i < |f.parsed.value| ==>
              MergeUploads([f])[i] == f.parsed.value[i].(filename := Some(f.name))
  {
  }

  /** An unreadable file leaves the merged table exactly as if it had not been uploaded. */
  lemma MergeSkipsUnreadable(a: seq<Upload>, f: Upload, b: seq<Upload>)
    requires f.parsed.None?
    ensures MergeUploads(a + [f] + b) == MergeUploads(a + b)
  {
    MergeConcat(a + [f], b);
    MergeConcat(a, [f]);
    MergeConcat(a, b);
    MergeOne(f);
  }

  /**
   * The table the calculation runs on. Exactly one file: its rows as read,
   * with no `filename` column. Several files: the tagged merge, provided at
   * least one of them parsed.
   */
  function Ingest(files: seq<Upload>): (r: Result<seq<Row>, IngestError>)
    ensures r.Success? <==> AnyReadable(files)
    ensures r.Success? ==> |r.value| == ReadableRowCount(files)
    ensures |files| == 1 && r.Success? ==> r.value == files[0].parsed.value
    ensures |files| > 1 && r.Success? ==> r.value == MergeUploads(files)
    ensures |files| > 1 && r.Success? ==> forall i :: 0 <= i < |r.value| ==>
              r.value[i].filename.Some? && r.value[i].filename.value in ReadableNames(files)
    ensures r.Failure? ==> (r.error == NothingUploaded <==> |files| == 0)
  {
    if |files| == 0 then Failure(NothingUploaded)
    else if |files| == 1 then
      assert files[..0] == [];
      match files[0].parsed
      case Some(rows) => Success(rows)
      case None => Failure(UnreadableFile(files[0].name))
    else if AnyReadable(files) then Success(MergeUploads(files))
    else Failure(NoReadableFile)
  }
}

=== FILE: reference.dfy ===
/**
 * The two reference tables of the calculator and their exact-key lookups
 * (`get_coordinate` and `get_emission_factor` in calculator.py).
 *
 * The airport sheet is indexed by its `Lookup` column and the emission-factor
 * sheet by its `Class` column; both are modelled as maps, so every key is
 * unique. Keys are compared as plain strings: no case folding, no trimming.
 */
module Reference {
  import opened Wrappers

  /** One row of the airport sheet. */
  datatype Airport = Airport(name: string, country: string, lat: real, lon: real)

  /** Airports keyed by their `Lookup` value. */
  type AirportTable = map<string, Airport>

  /** `Factor CO2e Value` (kg CO2e per passenger-kilometre) keyed by travel `Class`. */
  type FactorTable = map<string, real>

  /** Resolved coordinates of one leg, in degrees, in the order the source returns them. */
  datatype Coords = Coords(originLat: real, originLon: real, destLat: real, destLon: real)

  /** Which coordinate column of the airport sheet is read. */
  datatype Axis = Lat | Lon

  /** `airports_indexed.at[code, column]`: a miss is the `KeyError` the source catches. */
  function Cell(airports: AirportTable, code: string, axis: Axis): (r: Option<real>)
    ensures r.Some? <==> code in airports
  {
    if code !in airports then None
    else match axis
      case Lat => Some(airports[code].lat)
      case Lon => Some(airports[code].lon)
  }

  /**
   * `get_coordinate`: the four reads run in order inside one `try`; the first
   * miss abandons the whole tuple, so the result is all four values or none.
   */
  function GetCoordinate(airports: AirportTable, origin: string, destination: string): (r: Option<Coords>)
    ensures r.Some? <==> origin in airports && destination in airports
    ensures r.Some? ==> r.value == Coords(airports[origin].lat, airports[origin].lon,
                                          airports[destination].lat, airports[destination].lon)
  {
    match (Cell(airports, origin, Lat), Cell(airports, origin, Lon),
           Cell(airports, destination, Lat), Cell(airports, destination, Lon))
    case (Some(originLat), Some(originLon), Some(destLat), Some(destLon)) =>
      Some(Coords(originLat, originLon, destLat, destLon))
    case _ => None
  }

  /** `get_emission_factor`: the stored factor of exactly this class label, or `None`. */
  function GetEmissionFactor(factors: FactorTable, travelClass: string): (r: Option<real>)
    ensures r.Some? <==> travelClass in factors
    ensures r.Some? ==> r.value == factors[travelClass]
  {
    if travelClass in factors then Some(factors[travelClass]) else None
  }

  /** A lookup depends only on the entry of the asked keys: other rows of the sheet do not matter. */
  lemma CoordinateDependsOnlyOnLeg(airports: AirportTable, other: AirportTable, origin: string, destination: string)
    requires origin in airports <==> origin in other
    requires destination in airports <==> destination in other
    requires origin in airports ==> airports[origin] == other[origin]
    requires destination in airports ==> airports[destination] == other[destination]
    ensures GetCoordinate(airports, origin, destination) == GetCoordinate(other, origin, destination)
  {
  }
}

=== FILE: rows.dfy ===
/** The itinerary table as uploaded, and the columns the calculator adds to it. */
module Rows {
  import opened Wrappers

  /**
   * One uploaded itinerary line. The mandatory columns are typed fields; an
   * empty `Num Passengers` cell, the optional `Return?` column and the
   * `filename` column added by a multi-file upload are `None` when absent;
   * any other columns travel along untouched in `tags`.
   */
  datatype Row = Row(origin: string, destination: string, travelClass: string, passengers: Option<real>,
                     returnMarker: Option<string>, filename: Option<string>,
                     tags: map<string, string>)

  /**
   * A row after the calculation: the input row with `Distance_km`,
   * `Passenger_distance_pkm`, `Emission factor` and `Emissions` appended.
   * An unknown class leaves the factor and the emissions absent, never zero;
   * an empty passenger count leaves the passenger-kilometres and the
   * emissions absent.
   */
  datatype Enriched = Enriched(row: Row, distanceKm: real, passengerKm: Option<real>,
                               factor: Option<real>, emissions: Option<real>)

  /** The token in the `Return?` column that marks a round trip. */
  const ReturnToken: string := "Return"

  /** `row.get("Return?") == "Return"`: any other value, or no column at all, is one-way. */
  predicate IsReturn(row: Row) {
    row.returnMarker == Some(ReturnToken)
  }
}

=== FILE: wrappers.dfy ===
/** Absent-or-present values and success-or-error outcomes used across the model. */
module Wrappers {

  /** A value that may be missing: pandas' `None`/`NaN` cells and lookup misses. */
  datatype Option<+T> = None | Some(value: T) {

    /** The wrapped value, or `default` when there is none. */
    function GetOr(default: T): T {
      match this
      case Some(v) => v
      case None => default
    }
  }

  /** The outcome of a step that either produces a value or stops the run with an error. */
  datatype Result<+R, +E> = Success(value: R) | Failure(error: E)
}
